=== FILE: README.md ===
# fastify-i18next request glue, modelled in Dafny

This project models the core of the fastify-i18next plugin (`src/index.js`):
the `preHandler` hook that decides whether a request is ignored and binds a
language to it, the resource-bundle handler (`getResourcesHandler`), the
missing-key handler (`missingKeyHandler`) and route localisation (`addRoute`).

The i18next engine is not modelled. Detection, fallback resolution, text
direction, translation, URL rewriting and the resource store are function
parameters. What the code does to the request, the reply and the engine is
returned as data: an updated request record and ordered lists of effects
(`done`, `changeLanguage`, `loadLanguages`, headers, backend calls,
registrations).

Modules and files:

- `js_value.dfy` — `JsValue`: `undefined` as `Option`, string truthiness, `a || b`, `xs[0]`.
- `js_string.dfy` — `JsString`: `indexOf`, `split` on one character, `join`, integer to decimal text.
- `plugin_options.dfy` — `PluginOptions`: the `lngParam`/`nsParam` defaults and the 404 text.
- `pre_handler.dfy` — `PreHandler`: the ignore check and the per-request language binding.
- `resources_handler.dfy` — `ResourcesHandler`: cache headers, query lists, namespace registration, the nested bundle object.
- `missing_key_handler.dfy` — `MissingKeyHandler`: one `saveMissing` per body entry, then `ok`.
- `localized_routes.dfy` — `LocalizedRoutes`: per-language route paths and callbacks.

Behaviour of the code worth knowing:

- Language fields may be falsy after the hook. With no truthy `request.lng`
  and no detector, `language`, `locale` and `lng` are all set to that falsy
  value (`PreHandler.NoDetectorLeavesLanguageFalsy`). This holds when the
  clone's `languageChanged` listener does not fire during `changeLanguage`
  (see "## Left out"); if it fires, the listener overwrites the fields with
  the language switched to.
- The hook sets no `Content-Language` header. Those lines are commented out
  (src/index.js:52-54).
- The bundle object has a key for a language only when at least one
  namespace is requested. With languages but no namespaces it is `{}`.

## Model

| member | source | states |
|---|---|---|
| JsString.IndexOf | src/index.js:23 | `indexOf` returns -1 exactly when the pattern is not a substring; otherwise it returns the first index where the pattern occurs |
| JsString.IndexOfFrom | src/index.js:170 | the search from a start index returns the first occurrence at or after that index, or -1 when there is none |
| JsString.EmptyPatternFoundAtStart | src/index.js:23 | `s.indexOf("")` is 0 for every string, so an empty ignore entry always matches |
| JsString.IndexOfCharIsZeroIffPrefix | src/index.js:170 | `part.indexOf(':') === 0` holds exactly when the segment starts with `:` |
| JsString.Split | src/index.js:116-117 | `split` on one character gives at least one piece, and no piece contains the separator |
| JsString.SplitCount | src/index.js:116-117 | a split gives exactly one more piece than the string has separators |
| JsString.JoinSplit | src/index.js:162-177 | joining the pieces of a split gives back the original string |
| JsString.SplitJoin | src/index.js:162-177 | splitting a join of separator-free pieces gives back the pieces |
| JsString.Join | src/index.js:177 | joining puts the first piece first and a separator right after it, and the empty list joins to the empty string; `SplitJoin` and `JoinSplit` pair it with `Split` |
| JsString.IntToDecimal | src/index.js:109 | the decimal text of an integer is `-` for a negative number, then digits with no leading zero |
| JsString.NatToDecimal | src/index.js:109 | the decimal text of a number is non-empty, all digits, and has no leading zero |
| JsString.IntToDecimalRoundTrip | src/index.js:109 | the decimal text placed in a header reads back as the same integer |
| PreHandler.MatchesAny | src/index.js:21-24 | the loop over the ignore array skips the request exactly when some entry is a substring of `request.path` |
| PreHandler.ShouldIgnore | src/index.js:16-25 | a callback decides alone; an array skips exactly when some entry occurs in the path; any other value never skips |
| PreHandler.EmptyEntryIgnoresEveryPath | src/index.js:21-24 | an empty string in the ignore array skips every request |
| PreHandler.RunHook | src/index.js:14-86 | an ignored request is left unchanged and only `done` runs; of the cases modelled (every engine call and the ignore callback return normally), the hook throws exactly when a path-detected language must be stripped and there is no detector |
| PreHandler.HookBindsChosenLanguage | src/index.js:47-55 | `language`, `locale` and `lng` get one value: a truthy `request.lng`, else the detector's answer when there is a detector; the lookup name is the one the detector left; the fallback hierarchy is computed from the language |
| PreHandler.ChooseLanguage | src/index.js:47-48 | a truthy `request.lng` is kept and the detector is not consulted; otherwise the detector's language and lookup name are taken when there is a detector; with no detector `request.lng` and the lookup name stay as they were |
| PreHandler.SwitchEffects | src/index.js:27-58 | the switch phase clones first, then detects when asked and only then, and ends with the one `changeLanguage` call, with the target |
| PreHandler.SwitchEffectsExact | src/index.js:27-48 | the switch phase clones exactly once, and detects exactly once when asked and never otherwise |
| PreHandler.HookSwitchesLanguageOnce | src/index.js:27-58 | the clone comes first; the detector is consulted only for a falsy `request.lng`, and before the switch; `changeLanguage` runs once, right after the clone or the detection, with the chosen language or else `fallbackLng[0]` |
| PreHandler.FinishEffects | src/index.js:80-85 | the finish phase ends with exactly one `done`; a truthy language is loaded right before it, a falsy one never; the choice is cached only when there is a detector |
| PreHandler.FinishEffectsExact | src/index.js:80-85 | the finish phase loads a truthy language exactly once and loads nothing else; it caches the choice exactly once when there is a detector and never otherwise |
| PreHandler.HookDoneLast | src/index.js:83-85 | a completed run calls `done` exactly once, as its last effect (given that every engine call returns normally and the load succeeds) |
| PreHandler.HookLoadsBeforeDone | src/index.js:80-85 | for a truthy language, `done` waits for `loadLanguages` of that language; for a falsy one nothing is loaded; the choice is cached exactly when there is a detector |
| PreHandler.HookBindsTranslator | src/index.js:60-78 | the translator is bound; the URL is rewritten exactly when the lookup name after detection is `path` and `removeLngFromUrl` is set; reply locals get the language and its direction when they exist |
| PreHandler.PathDetectionRewritesUrl | src/index.js:47-62 | when the detector finds the language in the path during this run and `removeLngFromUrl` is set, the run completes with the language prefix removed from the URL |
| PreHandler.NoDetectorLeavesLanguageFalsy | src/index.js:47-58 | with no truthy `request.lng` and no detector, and no `languageChanged` event during the switch, the request's language fields stay falsy, the clone switches to `fallbackLng[0]` and nothing is loaded |
| PluginOptions.ParamName | src/index.js:116-117 | the parameter name is the configured name when that is a non-empty string, and the default otherwise (`lng` for `PluginOptions.LngParam`, `ns` for `PluginOptions.NsParam`), so it is never empty |
| ResourcesHandler.EffectiveMaxAge | src/index.js:100 | an undefined or zero `maxAge` becomes 2592000 seconds (thirty days); any other value is kept |
| ResourcesHandler.CacheEnabled | src/index.js:108 | a defined `cache` option decides; when it is undefined, caching is on exactly in production |
| ResourcesHandler.CacheHeaders | src/index.js:108-114 | in cache mode a single `Cache-Control: public, max-age=N` header where N is the decimal text of the effective max age and reads back as it; otherwise `Pragma: no-cache` then `Cache-Control: no-cache` |
| ResourcesHandler.QueryList | src/index.js:116-117 | an absent or empty parameter gives no items; otherwise the space-free items that join back, with single spaces, to the parameter |
| ResourcesHandler.ExtendNamespaces | src/index.js:119-122 | existing namespaces keep their places; every requested namespace ends up in the list; only new namespaces are appended, each once |
| ResourcesHandler.ExtendWithKnownIsNoop | src/index.js:121 | registering only namespaces that are already known changes nothing |
| ResourcesHandler.ExtendNamespacesIdempotent | src/index.js:119-122 | registering the same request a second time adds nothing |
| ResourcesHandler.SetPath | src/index.js:127 | the language's entry is created if missing and gets the bundle under the namespace; its other namespaces and the other languages are untouched |
| ResourcesHandler.FillNamespaces | src/index.js:126-128 | the namespace loop sets the language's entry to its previous entry overlaid with that language's bundles |
| ResourcesHandler.FillLanguages | src/index.js:125-129 | the language loop covers every requested language with its bundles and leaves other entries alone |
| ResourcesHandler.BuildResources | src/index.js:124-131 | the response object maps each requested language to its namespace bundles, and is empty when no namespace is requested |
| ResourcesHandler.HandleResources | src/index.js:98-133 | without a backend: a 404 and the fixed text, with no header set; with one: JSON type, cache headers, `load`, then the object; `options.ns` is extended only when it exists |
| ResourcesHandler.RepliesWithRequestedBundles | src/index.js:116-131 | after loading exactly the requested lists, the sent object has one key per requested language (when a namespace is requested), each mapping exactly the requested namespaces to the engine's bundles |
| ResourcesHandler.HandleResourcesIdempotent | src/index.js:116-131 | a second identical request, after the first registered its namespaces, gets the same reply and leaves the namespace list as it was |
| MissingKeyHandler.SaveEach | src/index.js:145-147 | one `saveMissing([lng], ns, key, value)` per body entry, in body order |
| MissingKeyHandler.HandleMissingKey | src/index.js:136-149 | without a backend: a 404 and the fixed text; otherwise the saves for each entry, then `ok` |
| MissingKeyHandler.SaveEachRoundTrip | src/index.js:145-147 | the key/value pairs carried by the saves are exactly the body's entries |
| MissingKeyHandler.SavesExactlyTheBody | src/index.js:143-148 | with a backend every body entry is saved once and in order; without one nothing is saved |
| MissingKeyHandler.OneGreeting | src/index.js:139-148 | posting `{"greeting": "Hello"}` for `en`/`common` makes exactly one save with those arguments, then answers `ok` |
| LocalizedRoutes.EffectiveVerb | src/index.js:153-178 | the app method is the verb name when it is a non-empty string, and `get` otherwise: a handler, nothing, or the empty string |
| LocalizedRoutes.LocalizeSegment | src/index.js:165-174 | `:lng` becomes the language; empty and other `:`-prefixed segments are kept; every other segment becomes `t(segment, lng)` |
| LocalizedRoutes.LocalizeSegments | src/index.js:164-175 | the localized segments correspond one-to-one with the route's segments |
| LocalizedRoutes.LocalizeRoute | src/index.js:162-177 | when neither the language nor any translation contains `/`, the localized path splits into exactly the localized segments of the route, one per route segment |
| LocalizedRoutes.CallbacksAsWritten | src/index.js:153-159 | the callbacks as the code builds them: one more than the extra arguments; without a handler in the verb slot they are the passed handlers; with one, that handler and the extra arguments, without `fc` |
| LocalizedRoutes.Register | src/index.js:161-179 | one registration per language, in `lngs` order, each with the verb, that language's localized path and the same callbacks |
| LocalizedRoutes.AddRoute | src/index.js:152-180 | as the code behaves: one registration per language with the effective verb, the localized path and the callbacks as built, which carry every passed handler except `fc` when a handler fills the verb slot |
| LocalizedRoutes.AddRouteLosesHandler | src/index.js:152-159 | `addRoute(i18next, route, lngs, app, mw1, mw2)` registers only `mw1` for every language, although `mw1, mw2` were passed |
| LocalizedRoutes.Callbacks | src/index.js:158-159 | every handler function passed after `app` is registered, in argument order; the result matches the code except when a handler fills the verb slot and `fc` is also given |
| LocalizedRoutes.AddRouteIntended | src/index.js:152-180 | with every passed handler registered in argument order; equal to `AddRoute` except when a handler fills the verb slot and `fc` is also given |

## Left out

- The i18next engine is not modelled. `cloneInstance`, `t`, `exists`, `dir`, `toResolveHierarchy`, the detector's `detect` and `cacheUserLanguage`, `backendConnector.load`/`saveMissing` and `getResourceBundle` are foreign calls. They are function parameters or recorded effects.
- The `languageChanged` listener (src/index.js:28-45) is not modelled. The engine decides when it fires. The model assumes it does not fire before src/index.js:83, so `request.lng` read there is the language chosen at src/index.js:47-48. If `changeLanguage` at src/index.js:58 emits the event synchronously, the listener sets `request.lng` to the language switched to, which the model does not show.
- The Promise wrapper, the asynchronous completion of `loadLanguages` and the registration through `fastify-plugin` (src/index.js:15, 89, 182-185) are left out. Completion order is kept only as the order of effects.
- The `Expires` header (src/index.js:110) is left out. It depends on the wall clock and on `Date` formatting.
- `process.env.NODE_ENV === 'production'` is the boolean parameter `production`.
- `utils.removeLngFromUrl` is not part of this model. It is an opaque parameter. `utils.setPath` is modelled only as the two-level set at src/index.js:127.
- The empty `handle` stub (src/index.js:92-96) does nothing and is left out.
- `examples/basic/index.js` only wires up and starts a server. It is left out.
- The request path, the entries of the `ignoreRoutes` array and the query and route parameter values are taken to be strings. A missing `request.path` with a non-empty ignore array, or a repeated query parameter, would make the JS throw; those cases are not modelled. A non-string ignore entry is converted by `indexOf` with `String()` (a RegExp entry matches its literal source text, `/.../`); that conversion is not modelled.
- Every engine call and the `ignoreRoutes` callback are taken to return normally: the callback (src/index.js:17), `detect` (:48), `toResolveHierarchy` (:55), `changeLanguage` (:58), `dir` (:77) and `cacheUserLanguage` (:80). `HookResult.Threw` covers only the missing detector at src/index.js:61. If any of these calls throws, the hook's promise is rejected before `done` is called. `loadLanguages` is taken to succeed. If its promise rejects at src/index.js:84-85, neither `done` nor `resolve` is ever called, because `.then` has no rejection handler, and the request stalls. `PreHandler.HookDoneLast` holds only under these assumptions.
- `fallbackLng` is taken to be an array of strings, as i18next normalises it. `maxAge` is an integer; fractional or string values are not modelled.
- The posted body is a list of entries in the order `for...in` visits them. Reordering of integer-like keys and inherited enumerable properties are not modelled.
- `app[verb]` is assumed to exist. An unknown verb name would throw in JS.
- `request.i18n`/`request.t` and `reply.locals.t`/`exists`/`i18n` are modelled as one "translator bound" flag each.
- ResourcesHandler.ExtendNamespaces: says which namespaces are appended and that none is appended twice. It does not say that they are appended in order of first request.
- The detector's own lookups are not modelled. `detect` is a parameter that returns the language and the value it leaves in `request.i18nextLookupName`.
- JsString.IndexOf: counts Unicode scalar values, where JavaScript counts UTF-16 code units. The code only tests the result against -1 and 0 (src/index.js:23, 170), and those tests agree.
- JsString.IntToDecimal: does not produce the exponent form JavaScript uses for numbers of 1e21 and above, so a `maxAge` that large is rendered differently.
- ResourcesHandler.HandleResources: the sent body is a map, so the key order of the JSON text (insertion order in JavaScript) is not modelled.

## Findings

| source | as written | input that shows it | evidently intended | confidence | as-written member | corrected member |
|---|---|---|---|---|---|---|
| src/index.js:153-159 | a function in the verb slot overwrites `fc`; then only `arguments[6..]` is appended, so the function passed as `fc` is never registered | `addRoute(i18next, route, lngs, app, mw1, mw2)` registers the callbacks `[mw1]` | every passed handler is registered in order: `[mw1, mw2]` | medium, not executed | LocalizedRoutes.AddRoute, LocalizedRoutes.AddRouteLosesHandler | LocalizedRoutes.AddRouteIntended, LocalizedRoutes.Callbacks |

=== FILE: js_string.dfy ===
/** The few JavaScript string operations the plugin relies on:
    `String.prototype.indexOf`, `String.prototype.split` with a
    one-character separator, `Array.prototype.join`, and the rendering of
    an integer number as decimal text when it is concatenated to a string. */
module JsString {

  /** `p` occurs in `s` starting at index `k`. */
  predicate OccursAt(s: string, p: string, k: int) {
    0 <= k && k + |p| <= |s| && s[k..k + |p|] == p
  }

  /** `p` is a substring of `s`; the reference meaning of `indexOf(...) > -1`. */
  predicate IsSubstring(p: string, s: string) {
    exists k :: 0 <= k <= |s| && OccursAt(s, p, k)
  }

  /** `s.indexOf(p, from)`: the first index at or after `from` where `p` occurs, or -1. */
  function IndexOfFrom(s: string, p: string, from: nat): (r: int)
    requires from <= |s|
    ensures r == -1 || (from <= r && OccursAt(s, p, r))
    ensures r == -1 ==> forall k :: from <= k ==> !OccursAt(s, p, k)
    ensures r != -1 ==> forall k :: from <= k < r ==> !OccursAt(s, p, k)
    decreases |s| - from
  {
    if from + |p| > |s| then -1
    else if s[from..from + |p|] == p then from
    else IndexOfFrom(s, p, from + 1)
  }

  /** `s.indexOf(p)`: the index of the first occurrence of `p` in `s`, or -1. */
  function IndexOf(s: string, p: string): (r: int)
    ensures r == -1 <==> !IsSubstring(p, s)
    ensures r != -1 ==> OccursAt(s, p, r)
    ensures r != -1 ==> forall k :: 0 <= k < r ==> !OccursAt(s, p, k)
  {
    IndexOfFrom(s, p, 0)
  }

  /** The empty string occurs at index 0 of every string, so `s.indexOf("")` is 0. */
  lemma EmptyPatternFoundAtStart(s: string)
    ensures IndexOf(s, "") == 0
  {
    assert OccursAt(s, "", 0);
  }

  /** `s.indexOf(c) === 0` holds exactly when `s` starts with the character `c`. */
  lemma IndexOfCharIsZeroIffPrefix(s: string, c: char)
    ensures IndexOf(s, [c]) == 0 <==> |s| > 0 && s[0] == c
  {
    if |s| > 0 && s[0] == c {
      assert OccursAt(s, [c], 0);
    }
  }

  /** `s.split(sep)` for a one-character separator: the pieces between
      separators, including empty pieces at the ends and between adjacent
      separators; `"".split(sep)` is `[""]`. */
  function Split(s: string, sep: char): (parts: seq<string>)
    ensures |parts| >= 1
    ensures forall i :: 0 <= i < |parts| ==> sep !in parts[i]
    decreases |s|
  {
    if |s| == 0 then [""]
    else
      var rest := Split(s[1..], sep);
      assert s == [s[0]] + s[1..];
      if s[0] == sep then [""] + rest
      else [[s[0]] + rest[0]] + rest[1..]
  }

  /** A split gives one more piece than the string has separators. */
  lemma {:induction false} SplitCount(s: string, sep: char)
    ensures |Split(s, sep)| == multiset(s)[sep] + 1
    decreases |s|
  {
    if |s| > 0 {
      SplitCount(s[1..], sep);
      assert s == [s[0]] + s[1..];
      assert multiset(s) == multiset([s[0]]) + multiset(s[1..]);
    }
  }

  /** `parts.join(sep)`: the pieces in order, with one separator between
      neighbours. */
  function Join(parts: seq<string>, sep: char): (s: string)
    ensures |parts| == 0 ==> s == ""
    ensures |parts| >= 1 ==> parts[0] <= s
    ensures |parts| >= 2 ==> |s| > |parts[0]| && s[|parts[0]|] == sep
    decreases |parts|
  {
    if |parts| == 0 then ""
    else if |parts| == 1 then parts[0]
    else parts[0] + [sep] + Join(parts[1..], sep)
  }

  /** Joining a piece in front of at least one more piece puts a separator between them. */
  lemma JoinCons(a: string, rest: seq<string>, sep: char)
    requires |rest| >= 1
    ensures Join([a] + rest, sep) == a + [sep] + Join(rest, sep)
  {
    assert ([a] + rest)[0] == a;
    assert ([a] + rest)[1..] == rest;
  }

  /** Joining the pieces of a split gives back the original string. */
  lemma {:induction false} JoinSplit(s: string, sep: char)
    ensures Join(Split(s, sep), sep) == s
    decreases |s|
  {
    if |s| > 0 {
      JoinSplit(s[1..], sep);
      JoinSplitStep(s, sep);
    }
  }

  /** The step of `JoinSplit`: from the tail's round trip to the whole string's. */
  lemma JoinSplitStep(s: string, sep: char)
    requires |s| > 0
    requires Join(Split(s[1..], sep), sep) == s[1..]
    ensures Join(Split(s, sep), sep) == s
  {
    assert s == [s[0]] + s[1..];
    if s[0] == sep {
      JoinSplitStepSeparator(s, sep);
    } else {
      JoinSplitStepChar(s, sep);
    }
  }

  lemma JoinSplitStepSeparator(s: string, sep: char)
    requires |s| > 0 && s[0] == sep
    requires Join(Split(s[1..], sep), sep) == s[1..]
    ensures Join(Split(s, sep), sep) == s
  {
    var rest := Split(s[1..], sep);
    assert Split(s, sep) == [""] + rest;
    JoinCons("", rest, sep);
    assert "" + [sep] + s[1..] == s;
  }

  lemma JoinSplitStepChar(s: string, sep: char)
    requires |s| > 0 && s[0] != sep
    requires Join(Split(s[1..], sep), sep) == s[1..]
    ensures Join(Split(s, sep), sep) == s
  {
    var rest := Split(s[1..], sep);
    assert Split(s, sep) == [[s[0]] + rest[0]] + rest[1..];
    if |rest| == 1 {
      assert [s[0]] + rest[0] == s;
    } else {
      JoinCons(rest[0], rest[1..], sep);
      JoinCons([s[0]] + rest[0], rest[1..], sep);
      assert [rest[0]] + rest[1..] == rest;
      assert [s[0]] + rest[0] + [sep] + Join(rest[1..], sep) == [s[0]] + s[1..];
    }
  }

  /** Splitting a string whose head holds no separator keeps the head on the first piece. */
  lemma {:induction false} SplitSeparatorFreePrefix(a: string, t: string, sep: char)
    requires sep !in a
    ensures Split(a + t, sep) == [a + Split(t, sep)[0]] + Split(t, sep)[1..]
    decreases |a|
  {
    if |a| > 0 {
      assert (a + t)[1..] == a[1..] + t;
      assert (a + t)[0] == a[0];
      SplitSeparatorFreePrefix(a[1..], t, sep);
      assert [a[0]] + (a[1..] + Split(t, sep)[0]) == a + Split(t, sep)[0];
    } else {
      var parts := Split(t, sep);
      assert a + t == t;
      assert a + parts[0] == parts[0];
      assert [parts[0]] + parts[1..] == parts;
    }
  }

  /** Splitting a join of separator-free pieces gives back the pieces. */
  lemma {:induction false} SplitJoin(parts: seq<string>, sep: char)
    requires |parts| >= 1
    requires forall i :: 0 <= i < |parts| ==> sep !in parts[i]
    ensures Split(Join(parts, sep), sep) == parts
    decreases |parts|
  {
    if |parts| == 1 {
      SplitSeparatorFreePrefix(parts[0], "", sep);
      assert parts[0] + "" == parts[0];
    } else {
      var tail := Join(parts[1..], sep);
      SplitJoin(parts[1..], sep);
      assert parts[0] + [sep] + tail == parts[0] + ([sep] + tail);
      SplitSeparatorFreePrefix(parts[0], [sep] + tail, sep);
      assert ([sep] + tail)[1..] == tail;
      assert parts[0] + "" == parts[0];
      assert [parts[0]] + parts[1..] == parts;
    }
  }

  /** The character for a decimal digit. */
  function DigitChar(d: int): (c: char)
    requires 0 <= d < 10
    ensures '0' <= c <= '9'
    ensures c as int - '0' as int == d
  {
    ('0' as int + d) as char
  }

  /** The decimal text of a natural number, without leading zeros. */
  function NatToDecimal(n: nat): (s: string)
    ensures |s| >= 1
    ensures forall i :: 0 <= i < |s| ==> '0' <= s[i] <= '9'
    ensures s[0] == '0' ==> n == 0
    decreases n
  {
    if n < 10 then [DigitChar(n)] else NatToDecimal(n / 10) + [DigitChar(n % 10)]
  }

  /** `String(n)` for an integer-valued number: an optional `-`, then
      decimal digits with no leading zero (`ParseInt` reads it back). */
  function IntToDecimal(n: int): (s: string)
    ensures |s| >= 1
    ensures s[0] == '-' <==> n < 0
    ensures var digits := if n < 0 then s[1..] else s;
      && |digits| >= 1
      && (forall i :: 0 <= i < |digits| ==> '0' <= digits[i] <= '9')
      && (digits[0] == '0' ==> n == 0)
  {
    if n < 0 then "-" + NatToDecimal(-n) else NatToDecimal(n)
  }

  /** The value of a string of decimal digits. */
  function ParseNat(s: string): int
    decreases |s|
  {
    if |s| == 0 then 0 else ParseNat(s[..|s| - 1]) * 10 + (s[|s| - 1] as int - '0' as int)
  }

  /** The value of an optionally negative decimal integer. */
  function ParseInt(s: string): int {
    if |s| > 0 && s[0] == '-' then -ParseNat(s[1..]) else ParseNat(s)
  }

  lemma {:induction false} ParseNatToDecimal(n: nat)
    ensures ParseNat(NatToDecimal(n)) == n
    decreases n
  {
    if n >= 10 {
      var s := NatToDecimal(n);
      ParseNatToDecimal(n / 10);
      assert s[..|s| - 1] == NatToDecimal(n / 10);
    }
  }

  /** The decimal rendering of an integer reads back as the same integer. */
  lemma IntToDecimalRoundTrip(n: int)
    ensures ParseInt(IntToDecimal(n)) == n
  {
    if n < 0 {
      ParseNatToDecimal(-n);
      assert IntToDecimal(n)[1..] == NatToDecimal(-n);
    } else {
      ParseNatToDecimal(n);
    }
  }
}

=== FILE: js_value.dfy ===
/** JavaScript values as the plugin sees them: a property that may be
    `undefined`, and the truthiness rules behind `if (x)` and `x || y`. */
module JsValue {

  /** A value that is either `undefined` (None) or present (Some). */
  datatype Option<+T> = None | Some(value: T)

  /** Truthiness of a string-or-undefined value: `undefined` and `""` are falsy. */
  predicate Truthy(v: Option<string>) {
    v.Some? && v.value != ""
  }

  /** `a || b` on two string-or-undefined values. */
  function Or(a: Option<string>, b: Option<string>): (r: Option<string>)
    ensures Truthy(a) ==> r == a
    ensures !Truthy(a) ==> r == b
    ensures Truthy(r) <==> Truthy(a) || Truthy(b)
  {
    if Truthy(a) then a else b
  }

  /** `a || fallback` where the fallback is a literal string (an option name default). */
  function OrDefault(a: Option<string>, fallback: string): (r: string)
    ensures fallback != "" ==> r != ""
    ensures Truthy(a) ==> r == a.value
  {
    if Truthy(a) then a.value else fallback
  }

  /** `xs[0]` on an array, which is `undefined` when the array is empty. */
  function First<T>(xs: seq<T>): (r: Option<T>)
    ensures r.Some? <==> |xs| > 0
    ensures r.Some? ==> r.value == xs[0]
  {
    if |xs| == 0 then None else Some(xs[0])
  }

  /** `obj[key]` on a string-valued object, `undefined` when the key is absent. */
  function Lookup(obj: map<string, string>, key: string): (r: Option<string>)
    ensures r.Some? <==> key in obj
    ensures r.Some? ==> r.value == obj[key]
  {
    if key in obj then Some(obj[key]) else None
  }
}

=== FILE: localized_routes.dfy ===
/** `addRoute`: register one copy of a route per language, with each path
    segment localized: `:lng` becomes the language code, other `:param`
    segments and empty segments stay, and every other segment is translated
    with `t(segment, {lng})`. Registrations are returned as a list instead
    of being made on the app. */
module LocalizedRoutes {
  import opened JsValue
  import JsString

  /** The argument in `addRoute`'s `verb` slot: a method name, a handler function, or nothing. */
  datatype VerbArg<H> = VerbName(name: string) | VerbHandler(handler: H) | VerbUndefined

  /** One `app[verb](path, ...callbacks)` call; a `None` callback is an `undefined` argument. */
  datatype Registration<H> = Registration(verb: string, path: string, callbacks: seq<Option<H>>)

  /** The app method used: `verb || 'get'`, where a handler in the verb slot was replaced by `'get'`. */
  function EffectiveVerb<H>(verb: VerbArg<H>): (v: string)
    ensures v != ""
    ensures verb.VerbName? && verb.name != "" ==> v == verb.name
    ensures !(verb.VerbName? && verb.name != "") ==> v == "get"
  {
    if verb.VerbName? && verb.name != "" then verb.name else "get"
  }

  /** The localized form of one `/`-separated segment. */
  function LocalizeSegment(part: string, lng: string, t: (string, string) -> string): (seg: string)
    ensures part == ":lng" ==> seg == lng
    ensures part != ":lng" && (part == "" || part[0] == ':') ==> seg == part
    ensures part != "" && part[0] != ':' ==> seg == t(part, lng)
  {
    JsString.IndexOfCharIsZeroIffPrefix(part, ':');
    if part == ":lng" then lng
    else if JsString.IndexOf(part, ":") == 0 || part == "" then part
    else t(part, lng)
  }

  /** The inner loop over the segments of the route. */
  function LocalizeSegments(parts: seq<string>, lng: string, t: (string, string) -> string): (segs: seq<string>)
    ensures |segs| == |parts|
    ensures forall i :: 0 <= i < |parts| ==> segs[i] == LocalizeSegment(parts[i], lng, t)
    decreases |parts|
  {
    if |parts| == 0 then []
    else [LocalizeSegment(parts[0], lng, t)] + LocalizeSegments(parts[1..], lng, t)
  }

  /** `locRoute.join('/')` for the segments of `String(route).split('/')`.
      When neither the language code nor any translation contains `/`, the
      localized path splits back into exactly the localized segments: as
      many as the route has, segment `i` being the localized form of
      segment `i`. */
  function LocalizeRoute(route: string, lng: string, t: (string, string) -> string): (path: string)
    ensures '/' !in lng && (forall k, l :: '/' !in t(k, l)) ==>
      JsString.Split(path, '/') == LocalizeSegments(JsString.Split(route, '/'), lng, t)
  {
    var localized := LocalizeSegments(JsString.Split(route, '/'), lng, t);
    assert '/' !in lng && (forall k, l :: '/' !in t(k, l)) ==>
      JsString.Split(JsString.Join(localized, '/'), '/') == localized
    by {
      if '/' !in lng && (forall k, l :: '/' !in t(k, l)) {
        var parts := JsString.Split(route, '/');
        forall i | 0 <= i < |localized|
          ensures '/' !in localized[i]
        {
          assert '/' !in parts[i];
        }
        JsString.SplitJoin(localized, '/');
      }
    }
    JsString.Join(localized, '/')
  }

  /** `[x, y, ...]` as callback arguments. */
  function Wrap<H>(hs: seq<H>): (cbs: seq<Option<H>>)
    ensures |cbs| == |hs|
    ensures forall i :: 0 <= i < |hs| ==> cbs[i] == Some(hs[i])
  {
    seq(|hs|, i requires 0 <= i < |hs| => Some(hs[i]))
  }

  /** The handler functions among the callback arguments, in order. */
  function Present<H>(cbs: seq<Option<H>>): seq<H>
    decreases |cbs|
  {
    if |cbs| == 0 then []
    else (if cbs[0].Some? then [cbs[0].value] else []) + Present(cbs[1..])
  }

  lemma {:induction false} PresentAppend<H>(a: seq<Option<H>>, b: seq<Option<H>>)
    ensures Present(a + b) == Present(a) + Present(b)
    decreases |a|
  {
    if |a| > 0 {
      assert (a + b)[1..] == a[1..] + b;
      PresentAppend(a[1..], b);
    } else {
      assert a + b == b;
    }
  }

  lemma {:induction false} PresentWrap<H>(hs: seq<H>)
    ensures Present(Wrap(hs)) == hs
    decreases |hs|
  {
    if |hs| > 0 {
      assert Wrap(hs)[1..] == Wrap(hs[1..]);
      PresentWrap(hs[1..]);
      assert hs == [hs[0]] + hs[1..];
    }
  }

  /** The handler functions the caller passed after `app`, in argument order. */
  function Passed<H>(verb: VerbArg<H>, fc: Option<H>, rest: seq<H>): seq<H> {
    (if verb.VerbHandler? then [verb.handler] else []) + (if fc.Some? then [fc.value] else []) + rest
  }

  /** The callbacks as the code builds them: a handler in the verb slot is
      assigned to `fc`, overwriting the function passed as `fc`, and only
      `arguments[6..]` are added after it. */
  function CallbacksAsWritten<H>(verb: VerbArg<H>, fc: Option<H>, rest: seq<H>): (cbs: seq<Option<H>>)
    ensures |cbs| == 1 + |rest|
    ensures !verb.VerbHandler? ==> Present(cbs) == Passed(verb, fc, rest)
    ensures verb.VerbHandler? ==> Present(cbs) == [verb.handler] + rest
  {
    var head: Option<H> := if verb.VerbHandler? then Some(verb.handler) else fc;
    PresentWrap(rest);
    PresentAppend([head], Wrap(rest));
    [head] + Wrap(rest)
  }

  /** `addRoute(i18next, route, lngs, app, mw1, mw2)` registers `mw1` only,
      for every language: `mw2` is lost. */
  lemma AddRouteLosesHandler<H>(route: string, lngs: seq<string>, mw1: H, mw2: H, t: (string, string) -> string)
    requires |lngs| >= 1
    ensures Passed(VerbHandler(mw1), Some(mw2), []) == [mw1, mw2]
    ensures forall i :: 0 <= i < |lngs| ==>
      Present(AddRoute(route, lngs, VerbHandler(mw1), Some(mw2), [], t)[i].callbacks) == [mw1]
  {
  }

  /** The callbacks with every passed handler kept: a handler in the verb slot
      comes first, then `fc`, then the further arguments. */
  function Callbacks<H>(verb: VerbArg<H>, fc: Option<H>, rest: seq<H>): (cbs: seq<Option<H>>)
    ensures |cbs| >= 1
    ensures Present(cbs) == Passed(verb, fc, rest)
    ensures !(verb.VerbHandler? && fc.Some?) ==> cbs == CallbacksAsWritten(verb, fc, rest)
  {
    PresentWrap(rest);
    if verb.VerbHandler? then
      var head := [Some(verb.handler)] + (if fc.Some? then [fc] else []);
      PresentAppend(head, Wrap(rest));
      PresentAppend([Some(verb.handler)], if fc.Some? then [fc] else []);
      head + Wrap(rest)
    else
      PresentAppend([fc], Wrap(rest));
      [fc] + Wrap(rest)
  }

  /** The loop over `lngs`: one registration per language, in `lngs` order,
      each with the localized route, the given verb and the same callbacks. */
  function Register<H>(route: string, lngs: seq<string>, verb: string, cbs: seq<Option<H>>,
                       t: (string, string) -> string): (regs: seq<Registration<H>>)
    ensures |regs| == |lngs|
    ensures forall i :: 0 <= i < |lngs| ==>
      regs[i] == Registration(verb, LocalizeRoute(route, lngs[i], t), cbs)
    decreases |lngs|
  {
    if |lngs| == 0 then []
    else [Registration(verb, LocalizeRoute(route, lngs[0], t), cbs)] + Register(route, lngs[1..], verb, cbs, t)
  }

  /** `addRoute` as the code behaves: every language's registration uses the
      effective verb, that language's localized path, and the callbacks as
      the code builds them, which lose `fc` when a handler fills the verb slot. */
  function AddRoute<H>(route: string, lngs: seq<string>, verb: VerbArg<H>, fc: Option<H>, rest: seq<H>,
                       t: (string, string) -> string): (regs: seq<Registration<H>>)
    ensures |regs| == |lngs|
    ensures forall i :: 0 <= i < |lngs| ==>
      && regs[i].verb == EffectiveVerb(verb)
      && regs[i].path == LocalizeRoute(route, lngs[i], t)
      && regs[i].callbacks == CallbacksAsWritten(verb, fc, rest)
      && (!verb.VerbHandler? ==> Present(regs[i].callbacks) == Passed(verb, fc, rest))
      && (verb.VerbHandler? ==> Present(regs[i].callbacks) == [verb.handler] + rest)
  {
    Register(route, lngs, EffectiveVerb(verb), CallbacksAsWritten(verb, fc, rest), t)
  }

  /** `addRoute` with every passed handler registered. */
  function AddRouteIntended<H>(route: string, lngs: seq<string>, verb: VerbArg<H>, fc: Option<H>, rest: seq<H>,
                               t: (string, string) -> string): (regs: seq<Registration<H>>)
    ensures |regs| == |lngs|
    ensures forall i :: 0 <= i < |lngs| ==>
      && regs[i].verb == EffectiveVerb(verb)
      && regs[i].path == LocalizeRoute(route, lngs[i], t)
      && Present(regs[i].callbacks) == Passed(verb, fc, rest)
    ensures !(verb.VerbHandler? && fc.Some?) ==> regs == AddRoute(route, lngs, verb, fc, rest, t)
  {
    Register(route, lngs, EffectiveVerb(verb), Callbacks(verb, fc, rest), t)
  }
}

=== FILE: missing_key_handler.dfy ===
/** `missingKeyHandler`: forward every key of a posted body to the backend's
    `saveMissing`, for the language and namespace named by the route
    parameters, then acknowledge with `ok`. The reply and the backend calls
    are returned as one ordered list of events. */
module MissingKeyHandler {
  import opened JsValue
  import opened PluginOptions

  datatype Options = Options(lngParam: Option<string>, nsParam: Option<string>)

  /** What the handler does to the reply and asks of the backend, in order. */
  datatype Event<V> =
    | Status(code: int)
    | SaveMissing(languages: seq<Option<string>>, ns: Option<string>, key: string, value: V)
    | SendText(text: string)

  /** The `for (var m in req.body)` loop: one `saveMissing([lng], ns, m, body[m])` per entry. */
  function SaveEach<V>(lng: Option<string>, ns: Option<string>, body: seq<(string, V)>): (saves: seq<Event<V>>)
    ensures |saves| == |body|
    ensures forall i :: 0 <= i < |body| ==>
      saves[i].SaveMissing? && saves[i].languages == [lng] && saves[i].ns == ns
      && saves[i].key == body[i].0 && saves[i].value == body[i].1
    decreases |body|
  {
    if |body| == 0 then []
    else [SaveMissing([lng], ns, body[0].0, body[0].1)] + SaveEach(lng, ns, body[1..])
  }

  /** One request to the missing-key endpoint. The body's entries are given in
      the order a `for...in` loop visits them. */
  function HandleMissingKey<V>(opts: Options, hasBackend: bool, params: map<string, string>,
                               body: seq<(string, V)>): (r: seq<Event<V>>)
    ensures !hasBackend ==> |r| == 2 && r[0] == Status(404) && r[1] == SendText(NoBackendMessage)
    ensures hasBackend ==>
      var lng := Lookup(params, LngParam(opts.lngParam));
      var ns := Lookup(params, NsParam(opts.nsParam));
      && |r| == |body| + 1
      && r[|body|] == SendText("ok")
      && forall i :: 0 <= i < |body| ==>
           r[i].SaveMissing? && r[i].languages == [lng] && r[i].ns == ns
           && r[i].key == body[i].0 && r[i].value == body[i].1
  {
    var lng := Lookup(params, LngParam(opts.lngParam));
    var ns := Lookup(params, NsParam(opts.nsParam));
    if !hasBackend then [Status(404), SendText(NoBackendMessage)]
    else SaveEach(lng, ns, body) + [SendText("ok")]
  }

  /** The key/value pairs carried by the `saveMissing` calls of an event list, in order. */
  function SavedEntries<V>(events: seq<Event<V>>): seq<(string, V)>
    decreases |events|
  {
    if |events| == 0 then []
    else if events[0].SaveMissing? then [(events[0].key, events[0].value)] + SavedEntries(events[1..])
    else SavedEntries(events[1..])
  }

  lemma {:induction false} SavedEntriesAppend<V>(a: seq<Event<V>>, b: seq<Event<V>>)
    ensures SavedEntries(a + b) == SavedEntries(a) + SavedEntries(b)
    decreases |a|
  {
    if |a| > 0 {
      assert (a + b)[1..] == a[1..] + b;
      SavedEntriesAppend(a[1..], b);
    } else {
      assert a + b == b;
    }
  }

  lemma {:induction false} SaveEachRoundTrip<V>(lng: Option<string>, ns: Option<string>, body: seq<(string, V)>)
    ensures SavedEntries(SaveEach(lng, ns, body)) == body
    decreases |body|
  {
    if |body| > 0 {
      SaveEachRoundTrip(lng, ns, body[1..]);
      SavedEntriesCons(SaveMissing([lng], ns, body[0].0, body[0].1), SaveEach(lng, ns, body[1..]));
      assert body == [body[0]] + body[1..];
    }
  }

  /** A `saveMissing` event in front contributes its pair in front. */
  lemma SavedEntriesCons<V>(e: Event<V>, rest: seq<Event<V>>)
    requires e.SaveMissing?
    ensures SavedEntries([e] + rest) == [(e.key, e.value)] + SavedEntries(rest)
  {
    assert ([e] + rest)[1..] == rest;
  }

  /** With a backend, the saved key/value pairs are exactly the body's entries,
      each once and in body order; without one, nothing is saved. */
  lemma SavesExactlyTheBody<V>(opts: Options, hasBackend: bool, params: map<string, string>,
                               body: seq<(string, V)>)
    ensures hasBackend ==> SavedEntries(HandleMissingKey(opts, hasBackend, params, body)) == body
    ensures !hasBackend ==> SavedEntries(HandleMissingKey(opts, hasBackend, params, body)) == []
  {
    var lng := Lookup(params, LngParam(opts.lngParam));
    var ns := Lookup(params, NsParam(opts.nsParam));
    if hasBackend {
      SavedEntriesAppend(SaveEach(lng, ns, body), [SendText("ok")]);
      SaveEachRoundTrip(lng, ns, body);
      var ok: seq<Event<V>> := [SendText("ok")];
      assert SavedEntries(ok) == [];
    } else {
      var r := HandleMissingKey(opts, hasBackend, params, body);
      assert SavedEntries(r) == SavedEntries(r[1..]);
      assert SavedEntries(r[1..]) == SavedEntries(r[1..][1..]);
    }
  }

  /** Posting `{"greeting": "Hello"}` for language `en` and namespace `common`
      makes exactly one `saveMissing(["en"], "common", "greeting", "Hello")`
      and answers `ok`. */
  lemma OneGreeting()
    ensures HandleMissingKey(Options(None, None), true, map["lng" := "en", "ns" := "common"],
                             [("greeting", "Hello")])
            == [SaveMissing([Some("en")], Some("common"), "greeting", "Hello"), SendText("ok")]
  {
  }
}

=== FILE: plugin_options.dfy ===
/** Defaults and fixed texts shared by the plugin's two HTTP handlers. */
module PluginOptions {
  import opened JsValue

  /** The text both handlers send with a 404 when the engine has no backend connector. */
  const NoBackendMessage: string := "i18next-express-middleware:: no backend configured"

  /** `configured || fallback`: the parameter name in use, taken from the
      options when it is a non-empty string and the default otherwise. */
  function ParamName(configured: Option<string>, fallback: string): (name: string)
    ensures Truthy(configured) ==> name == configured.value
    ensures !Truthy(configured) ==> name == fallback
    ensures fallback != "" ==> name != ""
  {
    OrDefault(configured, fallback)
  }

  /** `options.lngParam || 'lng'`: the query or route parameter naming the language. */
  function LngParam(lngParam: Option<string>): string {
    ParamName(lngParam, "lng")
  }

  /** `options.nsParam || 'ns'`: the query or route parameter naming the namespace. */
  function NsParam(nsParam: Option<string>): string {
    ParamName(nsParam, "ns")
  }
}

=== FILE: pre_handler.dfy ===
/** The plugin's `preHandler` hook: decide whether the request is ignored,
    choose the request's language, bind it onto the request and the reply's
    template locals, and tell the engine to switch to it and load it.
    The engine's services are parameters; what the hook asks of them is
    returned as an ordered list of effects. */
module PreHandler {
  import opened JsValue
  import JsString

  /** The request fields the hook reads or writes. */
  datatype Request = Request(
    path: string,
    url: string,
    lng: Option<string>,
    language: Option<string>,
    locale: Option<string>,
    languages: Option<seq<string>>,  // the resolved fallback hierarchy
    lookupName: Option<string>,      // `request.i18nextLookupName`, left by the detector
    translatorBound: bool)           // `request.i18n` and `request.t` assigned

  /** The template locals of a reply (`reply.locals`), when the reply has them. */
  datatype Locals = Locals(language: Option<string>, languageDir: Option<string>, translatorBound: bool)

  datatype Reply = Reply(locals: Option<Locals>)

  /** The `ignoreRoutes` option: a callback, an array of path fragments, or anything else. */
  datatype IgnoreRoutes =
    | IgnoreCallback(ignore: (Request, Reply) -> bool)
    | IgnoreList(entries: seq<string>)
    | IgnoreNothing

  datatype Options = Options(ignoreRoutes: IgnoreRoutes, removeLngFromUrl: bool)

  /** What a call of `detect(request, reply)` yields: the detected language,
      and `request.i18nextLookupName` as the call leaves it (the detector
      records there which lookup found the language). */
  datatype Detection = Detection(lng: Option<string>, lookupName: Option<string>)

  /** The engine's language detector service. */
  datatype Detector = Detector(detect: (Request, Reply) -> Detection, lookupFromPathIndex: int)

  /** The parts of the shared i18next instance the hook consults. */
  datatype Engine = Engine(
    detector: Option<Detector>,
    toResolveHierarchy: Option<string> -> seq<string>,
    dir: Option<string> -> string,
    fallbackLng: seq<string>)

  /** What the hook asks of the engine and of the framework, in order. */
  datatype Effect =
    | Done                                 // the framework's continuation `done()`
    | CloneInstance                        // `i18next.cloneInstance(...)`
    | Detect                               // `languageDetector.detect(request, reply)`
    | ChangeLanguage(lng: Option<string>)  // `i18n.changeLanguage(lng)`
    | CacheUserLanguage(lng: Option<string>)
    | LoadLanguages(code: string)         // `i18next.loadLanguages(lng)`, awaited before `done()`

  /** A hook run either completes, or throws once it has already updated the request. */
  datatype HookResult =
    | Completed(request: Request, reply: Reply, effects: seq<Effect>)
    | Threw(request: Request, effects: seq<Effect>)

  /** Whether some entry of the list occurs in the path, checked with `path.indexOf(entry) > -1`. */
  function MatchesAny(entries: seq<string>, path: string): (r: bool)
    ensures r <==> exists i :: 0 <= i < |entries| && JsString.IsSubstring(entries[i], path)
    decreases |entries|
  {
    if |entries| == 0 then false
    else JsString.IndexOf(path, entries[0]) > -1 || MatchesAny(entries[1..], path)
  }

  /** Whether the hook skips the request. */
  function ShouldIgnore(opts: Options, req: Request, reply: Reply): (r: bool)
    ensures opts.ignoreRoutes.IgnoreList? ==>
      (r <==> exists i :: 0 <= i < |opts.ignoreRoutes.entries|
                           && JsString.IsSubstring(opts.ignoreRoutes.entries[i], req.path))
    ensures opts.ignoreRoutes.IgnoreCallback? ==> r == opts.ignoreRoutes.ignore(req, reply)
    ensures opts.ignoreRoutes.IgnoreNothing? ==> !r
  {
    match opts.ignoreRoutes
    case IgnoreCallback(ignore) => ignore(req, reply)
    case IgnoreList(entries) => MatchesAny(entries, req.path)
    case IgnoreNothing => false
  }

  /** An empty string in the ignore list skips every request, whatever its path. */
  lemma EmptyEntryIgnoresEveryPath(opts: Options, req: Request, reply: Reply)
    requires opts.ignoreRoutes.IgnoreList? && "" in opts.ignoreRoutes.entries
    ensures ShouldIgnore(opts, req, reply)
  {
    var entries := opts.ignoreRoutes.entries;
    var i :| 0 <= i < |entries| && entries[i] == "";
    assert JsString.OccursAt(req.path, entries[i], 0);
  }

  /** The language the hook binds, with the lookup name as it stands
      afterwards: a truthy `request.lng` is kept and the detector is not
      consulted; otherwise the detector's answer when there is a detector;
      otherwise the falsy `request.lng` itself. */
  function ChooseLanguage(engine: Engine, req: Request, reply: Reply): (choice: Detection)
    ensures Truthy(req.lng) ==> choice == Detection(req.lng, req.lookupName)
    ensures engine.detector.None? ==> choice == Detection(req.lng, req.lookupName)
    ensures !Truthy(req.lng) && engine.detector.Some? ==> choice == engine.detector.value.detect(req, reply)
  {
    if !Truthy(req.lng) && engine.detector.Some? then engine.detector.value.detect(req, reply)
    else Detection(req.lng, req.lookupName)
  }

  /** The effects up to the language switch: clone, optional detection, one `changeLanguage`. */
  function SwitchEffects(detects: bool, target: Option<string>): (effs: seq<Effect>)
    ensures |effs| >= 2 && effs[0] == CloneInstance
    ensures effs[|effs| - 1] == ChangeLanguage(target)
    ensures Detect in effs <==> detects
    ensures detects ==> effs[1] == Detect
    ensures multiset(effs)[ChangeLanguage(target)] == 1
    ensures forall e :: e in effs ==> e.ChangeLanguage? ==> e == ChangeLanguage(target)
    ensures forall e :: e in effs ==> !e.Done? && !e.LoadLanguages? && !e.CacheUserLanguage?
  {
    if detects then [CloneInstance, Detect, ChangeLanguage(target)]
    else [CloneInstance, ChangeLanguage(target)]
  }

  /** The effects after the bindings: cache the choice, load it if truthy, then `done()`. */
  function FinishEffects(hasDetector: bool, lng: Option<string>): (effs: seq<Effect>)
    ensures |effs| >= 1 && effs[|effs| - 1] == Done && Done !in effs[..|effs| - 1]
    ensures Truthy(lng) ==> |effs| >= 2 && effs[|effs| - 2] == LoadLanguages(lng.value)
    ensures !Truthy(lng) ==> forall e :: e in effs ==> !e.LoadLanguages?
    ensures CacheUserLanguage(lng) in effs <==> hasDetector
    ensures forall e :: e in effs ==> !e.ChangeLanguage? && !e.Detect? && !e.CloneInstance?
  {
    if hasDetector && Truthy(lng) then [CacheUserLanguage(lng), LoadLanguages(lng.value), Done]
    else if hasDetector then [CacheUserLanguage(lng), Done]
    else if Truthy(lng) then [LoadLanguages(lng.value), Done]
    else [Done]
  }

  /** The switch phase clones exactly once and detects at most once. */
  lemma SwitchEffectsExact(detects: bool, target: Option<string>)
    ensures var effs := SwitchEffects(detects, target);
      && multiset(effs)[CloneInstance] == 1
      && multiset(effs)[Detect] == (if detects then 1 else 0)
  {
  }

  /** The finish phase loads at most once, only the chosen language, and
      caches the choice at most once. */
  lemma FinishEffectsExact(hasDetector: bool, lng: Option<string>)
    ensures var effs := FinishEffects(hasDetector, lng);
      && (Truthy(lng) ==> multiset(effs)[LoadLanguages(lng.value)] == 1)
      && (forall e :: e in effs && e.LoadLanguages? ==> Truthy(lng) && e == LoadLanguages(lng.value))
      && multiset(effs)[CacheUserLanguage(lng)] == (if hasDetector then 1 else 0)
      && (forall e :: e in effs && e.CacheUserLanguage? ==> e == CacheUserLanguage(lng))
  {
  }

  /** One run of the hook for a request. `removeLngFromUrl` is the engine's
      URL rewriter, applied only for path-detected languages when the option
      asks for it. */
  function RunHook(opts: Options, engine: Engine, removeLngFromUrl: (string, int) -> string,
                   req: Request, reply: Reply): (r: HookResult)
    // an ignored request is left untouched and the detector is not consulted
    ensures ShouldIgnore(opts, req, reply) ==> r == Completed(req, reply, [Done])
    // of the cases modelled (engine calls return normally), it throws only when a
    // path-detected language must be stripped and there is no detector
    ensures r.Threw? <==>
      && !ShouldIgnore(opts, req, reply)
      && req.lookupName == Some("path") && opts.removeLngFromUrl && engine.detector.None?
    ensures r.Threw? ==>
      Done !in r.effects && r.request.url == req.url && r.request.translatorBound == req.translatorBound
  {
    if ShouldIgnore(opts, req, reply) then Completed(req, reply, [Done])
    else
      var choice := ChooseLanguage(engine, req, reply);
      var lng := choice.lng;
      var bound := req.(lng := lng, language := lng, locale := lng, lookupName := choice.lookupName,
                        languages := Some(engine.toResolveHierarchy(lng)));
      var switched := SwitchEffects(!Truthy(req.lng) && engine.detector.Some?,
                                    Or(lng, First(engine.fallbackLng)));
      var rewrite := choice.lookupName == Some("path") && opts.removeLngFromUrl;
      if rewrite && engine.detector.None? then Threw(bound, switched)
      else
        var url := if rewrite
                   then removeLngFromUrl(req.url, engine.detector.value.lookupFromPathIndex)
                   else req.url;
        var reply' := if reply.locals.Some?
                      then Reply(Some(Locals(lng, Some(engine.dir(lng)), true)))
                      else reply;
        var finish := FinishEffects(engine.detector.Some?, lng);
        Completed(bound.(url := url, translatorBound := true), reply', switched + finish)
  }

  /** For a request that is not ignored, `language`, `locale` and `lng` all
      hold one value: a truthy `request.lng`, else the detector's answer. */
  lemma HookBindsChosenLanguage(opts: Options, engine: Engine, removeLngFromUrl: (string, int) -> string,
                                req: Request, reply: Reply)
    requires !ShouldIgnore(opts, req, reply)
    ensures var r := RunHook(opts, engine, removeLngFromUrl, req, reply);
      && r.request.language == r.request.lng
      && r.request.locale == r.request.lng
      && (Truthy(req.lng) ==> r.request.lng == req.lng)
      && (!Truthy(req.lng) && engine.detector.Some? ==>
            r.request.lng == engine.detector.value.detect(req, reply).lng
            && r.request.lookupName == engine.detector.value.detect(req, reply).lookupName)
      && (!Truthy(req.lng) && engine.detector.None? ==> r.request.lng == req.lng)
      && (Truthy(req.lng) || engine.detector.None? ==> r.request.lookupName == req.lookupName)
      && r.request.languages == Some(engine.toResolveHierarchy(r.request.lng))
      && r.request.path == req.path
  {
  }

  /** The hook clones the engine first, consults the detector only when
      `request.lng` is falsy and before switching, and switches the clone
      exactly once: to the
      chosen language, or to the first fallback language when that is falsy. */
  lemma HookSwitchesLanguageOnce(opts: Options, engine: Engine, removeLngFromUrl: (string, int) -> string,
                                 req: Request, reply: Reply)
    requires !ShouldIgnore(opts, req, reply)
    ensures var r := RunHook(opts, engine, removeLngFromUrl, req, reply);
      var target := Or(r.request.lng, First(engine.fallbackLng));
      && |r.effects| >= 2 && r.effects[0] == CloneInstance
      && (Detect in r.effects <==> !Truthy(req.lng) && engine.detector.Some?)
      && (Detect in r.effects ==> |r.effects| >= 3 && r.effects[1] == Detect && r.effects[2] == ChangeLanguage(target))
      && (Detect !in r.effects ==> r.effects[1] == ChangeLanguage(target))
      && multiset(r.effects)[ChangeLanguage(target)] == 1
      && forall e :: e in r.effects ==> e.ChangeLanguage? ==> e == ChangeLanguage(target)
  {
  }

  /** A completed run calls `done` exactly once, as its last effect. */
  lemma HookDoneLast(opts: Options, engine: Engine, removeLngFromUrl: (string, int) -> string,
                     req: Request, reply: Reply)
    requires RunHook(opts, engine, removeLngFromUrl, req, reply).Completed?
    ensures var r := RunHook(opts, engine, removeLngFromUrl, req, reply);
      && |r.effects| >= 1
      && r.effects[|r.effects| - 1] == Done
      && Done !in r.effects[..|r.effects| - 1]
  {
    if !ShouldIgnore(opts, req, reply) {
      var lng := ChooseLanguage(engine, req, reply).lng;
      var switched := SwitchEffects(!Truthy(req.lng) && engine.detector.Some?,
                                    Or(lng, First(engine.fallbackLng)));
      var finish := FinishEffects(engine.detector.Some?, lng);
      CompletedHookEffects(opts, engine, removeLngFromUrl, req, reply);
      ConcatTail(switched, finish);
    } else {
      var r := RunHook(opts, engine, removeLngFromUrl, req, reply);
      assert r.effects == [Done];
      assert r.effects[..0] == [];
    }
  }

  /** When a completed run's language is truthy, `done` waits for the load of
      that language, which is the effect right before it; otherwise nothing is
      loaded. The choice is cached exactly when there is a detector. */
  lemma HookLoadsBeforeDone(opts: Options, engine: Engine, removeLngFromUrl: (string, int) -> string,
                            req: Request, reply: Reply)
    requires !ShouldIgnore(opts, req, reply)
    requires RunHook(opts, engine, removeLngFromUrl, req, reply).Completed?
    ensures var r := RunHook(opts, engine, removeLngFromUrl, req, reply);
      && (Truthy(r.request.lng) ==> r.effects[|r.effects| - 2] == LoadLanguages(r.request.lng.value))
      && (!Truthy(r.request.lng) ==> forall e :: e in r.effects ==> !e.LoadLanguages?)
      && (CacheUserLanguage(r.request.lng) in r.effects <==> engine.detector.Some?)
  {
    var lng := ChooseLanguage(engine, req, reply).lng;
    var switched := SwitchEffects(!Truthy(req.lng) && engine.detector.Some?,
                                  Or(lng, First(engine.fallbackLng)));
    var finish := FinishEffects(engine.detector.Some?, lng);
    CompletedHookEffects(opts, engine, removeLngFromUrl, req, reply);
    ConcatTail(switched, finish);
  }

  /** The end of a concatenation is the end of its second part. */
  lemma ConcatTail<T>(a: seq<T>, b: seq<T>)
    requires |b| >= 1
    ensures (a + b)[..|a + b| - 1] == a + b[..|b| - 1]
    ensures (a + b)[|a + b| - 1] == b[|b| - 1]
    ensures |b| >= 2 ==> (a + b)[|a + b| - 2] == b[|b| - 2]
  {
  }

  /** A completed, non-ignored run emits the switch effects followed by the finishing effects. */
  lemma CompletedHookEffects(opts: Options, engine: Engine, removeLngFromUrl: (string, int) -> string,
                             req: Request, reply: Reply)
    requires !ShouldIgnore(opts, req, reply)
    requires RunHook(opts, engine, removeLngFromUrl, req, reply).Completed?
    ensures var r := RunHook(opts, engine, removeLngFromUrl, req, reply);
      var lng := ChooseLanguage(engine, req, reply).lng;
      && r.request.lng == lng
      && r.effects == SwitchEffects(!Truthy(req.lng) && engine.detector.Some?, Or(lng, First(engine.fallbackLng)))
                      + FinishEffects(engine.detector.Some?, lng)
  {
  }

  /** A completed run binds the translator onto the request, rewrites the URL
      only for a path-detected language with `removeLngFromUrl` set, and fills
      the reply's template locals when the reply has them. */
  lemma HookBindsTranslator(opts: Options, engine: Engine, removeLngFromUrl: (string, int) -> string,
                            req: Request, reply: Reply)
    requires !ShouldIgnore(opts, req, reply)
    requires RunHook(opts, engine, removeLngFromUrl, req, reply).Completed?
    ensures var r := RunHook(opts, engine, removeLngFromUrl, req, reply);
      && r.request.translatorBound
      && r.request.url ==
           (if r.request.lookupName == Some("path") && opts.removeLngFromUrl
            then removeLngFromUrl(req.url, engine.detector.value.lookupFromPathIndex)
            else req.url)
      && (reply.locals.None? ==> r.reply == reply)
      && (reply.locals.Some? ==>
            r.reply.locals == Some(Locals(r.request.lng, Some(engine.dir(r.request.lng)), true)))
  {
  }

  /** A language the detector finds in the path during this run has the
      prefix removed from the URL when `removeLngFromUrl` is set. */
  lemma PathDetectionRewritesUrl(opts: Options, engine: Engine, removeLngFromUrl: (string, int) -> string,
                                 req: Request, reply: Reply)
    requires !ShouldIgnore(opts, req, reply) && opts.removeLngFromUrl
    requires !Truthy(req.lng) && engine.detector.Some?
    requires engine.detector.value.detect(req, reply).lookupName == Some("path")
    ensures var r := RunHook(opts, engine, removeLngFromUrl, req, reply);
      && r.Completed?
      && r.request.url == removeLngFromUrl(req.url, engine.detector.value.lookupFromPathIndex)
  {
  }

  /** With no truthy `request.lng` and no detector, the hook binds the falsy
      value as it found it: the request ends up without a usable language,
      while the clone switches to the first fallback language. */
  lemma NoDetectorLeavesLanguageFalsy(opts: Options, engine: Engine, removeLngFromUrl: (string, int) -> string,
                                      req: Request, reply: Reply)
    requires !ShouldIgnore(opts, req, reply)
    requires engine.detector.None? && !Truthy(req.lng)
    ensures var r := RunHook(opts, engine, removeLngFromUrl, req, reply);
      && !Truthy(r.request.language) && !Truthy(r.request.locale)
      && ChangeLanguage(First(engine.fallbackLng)) in r.effects
      && forall e :: e in r.effects ==> !e.LoadLanguages?
  {
  }
}

=== FILE: resources_handler.dfy ===
/** `getResourcesHandler`: serve the resource bundles of the requested
    languages and namespaces as one JSON object, with cache headers chosen
    by the `cache`/`maxAge` options, after registering any new namespace
    with the engine. The engine's store is the parameter
    `getResourceBundle`; the reply is returned as an ordered list of events. */
module ResourcesHandler {
  import opened JsValue
  import JsString
  import opened PluginOptions

  /** The default `maxAge`: thirty days, in seconds. */
  const DefaultMaxAge: int := 60 * 60 * 24 * 30

  /** The `Cache-Control` value prefix for cacheable replies (`max-age`, section 5.2.2.1 of RFC 9111). */
  const PublicMaxAgePrefix: string := "public, max-age="

  /** The handler's options; `None` is an option left undefined. */
  datatype Options = Options(
    maxAge: Option<int>,
    cache: Option<bool>,
    lngParam: Option<string>,
    nsParam: Option<string>)

  /** The parts of the i18next instance the handler uses. */
  datatype Engine<B> = Engine(
    hasBackend: bool,                         // `i18next.services.backendConnector` is set
    ns: Option<seq<string>>,                  // `i18next.options.ns`
    getResourceBundle: (string, string) -> B) // the store after the backend's `load`

  /** A language-to-namespace-to-bundle JSON object. */
  type Resources<B> = map<string, map<string, B>>

  /** What the handler does to the reply and asks of the backend, in order. */
  datatype Event<B> =
    | Status(code: int)
    | ContentType(kind: string)
    | Header(name: string, value: string)
    | Load(languages: seq<string>, namespaces: seq<string>)
    | SendText(text: string)
    | SendJson(body: Resources<B>)

  /** The reply events together with the engine's namespace list afterwards. */
  datatype Outcome<B> = Outcome(events: seq<Event<B>>, ns: Option<seq<string>>)

  /** `options.maxAge || 60 * 60 * 24 * 30`: an undefined or zero `maxAge` falls back to thirty days. */
  function EffectiveMaxAge(opts: Options): (age: int)
    ensures opts.maxAge.Some? && opts.maxAge.value != 0 ==> age == opts.maxAge.value
    ensures opts.maxAge.None? || opts.maxAge.value == 0 ==> age == 2592000
    ensures age != 0
  {
    if opts.maxAge.Some? && opts.maxAge.value != 0 then opts.maxAge.value else DefaultMaxAge
  }

  /** The cache mode: `options.cache` when it is defined, else whether the process runs in production. */
  function CacheEnabled(opts: Options, production: bool): (on: bool)
    ensures opts.cache == Some(true) ==> on
    ensures opts.cache == Some(false) ==> !on
    ensures opts.cache.None? ==> (on <==> production)
  {
    if opts.cache.Some? then opts.cache.value else production
  }

  /** The caching headers, in the order they are set (the `Expires` header is not modelled). */
  function CacheHeaders<B(==)>(opts: Options, production: bool): (hs: seq<Event<B>>)
    ensures forall i :: 0 <= i < |hs| ==> hs[i].Header?
    ensures CacheEnabled(opts, production) ==>
      && |hs| == 1 && hs[0].Header? && hs[0].name == "Cache-Control"
      && |PublicMaxAgePrefix| < |hs[0].value|
      && hs[0].value[..|PublicMaxAgePrefix|] == PublicMaxAgePrefix
      && hs[0].value[|PublicMaxAgePrefix|..] == JsString.IntToDecimal(EffectiveMaxAge(opts))
      && JsString.ParseInt(hs[0].value[|PublicMaxAgePrefix|..]) == EffectiveMaxAge(opts)
    ensures !CacheEnabled(opts, production) ==>
      hs == [Header("Pragma", "no-cache"), Header("Cache-Control", "no-cache")]
  {
    if CacheEnabled(opts, production) then
      var digits := JsString.IntToDecimal(EffectiveMaxAge(opts));
      JsString.IntToDecimalRoundTrip(EffectiveMaxAge(opts));
      assert (PublicMaxAgePrefix + digits)[|PublicMaxAgePrefix|..] == digits;
      [Header("Cache-Control", PublicMaxAgePrefix + digits)]
    else
      [Header("Pragma", "no-cache"), Header("Cache-Control", "no-cache")]
  }

  /** `req.query[name] ? req.query[name].split(' ') : []`. */
  function QueryList(query: map<string, string>, name: string): (items: seq<string>)
    ensures !Truthy(Lookup(query, name)) ==> items == []
    ensures Truthy(Lookup(query, name)) ==>
      && |items| >= 1
      && JsString.Join(items, ' ') == query[name]
      && forall i :: 0 <= i < |items| ==> ' ' !in items[i]
  {
    if Truthy(Lookup(query, name)) then
      JsString.JoinSplit(query[name], ' ');
      JsString.Split(query[name], ' ')
    else []
  }

  /** Push each requested namespace that `known` does not yet hold, in request order. */
  function ExtendNamespaces(known: seq<string>, requested: seq<string>): (r: seq<string>)
    ensures |known| <= |r| && r[..|known|] == known
    ensures forall i :: 0 <= i < |requested| ==> requested[i] in r
    ensures forall i :: |known| <= i < |r| ==> r[i] in requested && r[i] !in known
    ensures forall i, j :: |known| <= i < j < |r| ==> r[i] != r[j]
    decreases |requested|
  {
    if |requested| == 0 then known
    else
      var ns := requested[0];
      var known' := if ns in known then known else known + [ns];
      var r := ExtendNamespaces(known', requested[1..]);
      assert r[..|known|] == known by {
        assert r[..|known'|] == known';
        assert known'[..|known|] == known;
      }
      assert ns in r by {
        var k :| 0 <= k < |known'| && known'[k] == ns;
        assert r[..|known'|][k] == ns;
      }
      assert forall i :: 1 <= i < |requested| ==> requested[i] in requested[1..] by {
        forall i | 1 <= i < |requested| ensures requested[i] in requested[1..] {
          assert requested[i] == requested[1..][i - 1];
        }
      }
      r
  }

  /** Extending with namespaces that are all known already changes nothing. */
  lemma {:induction false} ExtendWithKnownIsNoop(known: seq<string>, requested: seq<string>)
    requires forall i :: 0 <= i < |requested| ==> requested[i] in known
    ensures ExtendNamespaces(known, requested) == known
    decreases |requested|
  {
    if |requested| > 0 {
      ExtendWithKnownIsNoop(known, requested[1..]);
    }
  }

  /** Registering the same namespaces twice has the effect of registering them once. */
  lemma ExtendNamespacesIdempotent(known: seq<string>, requested: seq<string>)
    ensures ExtendNamespaces(ExtendNamespaces(known, requested), requested)
            == ExtendNamespaces(known, requested)
  {
    ExtendWithKnownIsNoop(ExtendNamespaces(known, requested), requested);
  }

  /** The bundles of one language for the given namespaces. */
  function Row<B>(lng: string, nss: seq<string>, get: (string, string) -> B): map<string, B> {
    map n | n in nss :: get(lng, n)
  }

  /** The entry `res[lng]`, or an empty object when there is none. */
  function Base<B>(res: Resources<B>, lng: string): map<string, B> {
    if lng in res then res[lng] else map[]
  }

  /** `setPath(res, [lng, ns], bundle)`: create `res[lng]` if missing, then set its `ns` entry. */
  function SetPath<B>(res: Resources<B>, lng: string, ns: string, bundle: B): (r: Resources<B>)
    ensures r.Keys == res.Keys + {lng}
    ensures ns in r[lng] && r[lng][ns] == bundle
    ensures r[lng].Keys == Base(res, lng).Keys + {ns}
    ensures forall n :: n in Base(res, lng) && n != ns ==> r[lng][n] == Base(res, lng)[n]
    ensures forall l :: l in res && l != lng ==> r[l] == res[l]
  {
    res[lng := Base(res, lng)[ns := bundle]]
  }

  /** Setting the first namespace's bundle, then the rest, gives the whole row. */
  lemma RowStep<B>(base: map<string, B>, lng: string, nss: seq<string>, get: (string, string) -> B)
    requires |nss| > 0
    ensures base[nss[0] := get(lng, nss[0])] + Row(lng, nss[1..], get) == base + Row(lng, nss, get)
  {
    var left := base[nss[0] := get(lng, nss[0])] + Row(lng, nss[1..], get);
    var right := base + Row(lng, nss, get);
    assert forall n :: n in nss <==> n == nss[0] || n in nss[1..] by {
      assert nss == [nss[0]] + nss[1..];
    }
    assert left.Keys == right.Keys;
    forall n | n in left
      ensures left[n] == right[n]
    {
    }
  }

  /** Adding the same row twice is adding it once. */
  lemma RowAbsorbs<B>(base: map<string, B>, row: map<string, B>)
    ensures base + row + row == base + row
  {
    var left := base + row + row;
    assert left.Keys == (base + row).Keys;
    forall n | n in left
      ensures left[n] == (base + row)[n]
    {
    }
  }

  /** The inner `namespaces.forEach` for one language. */
  function FillNamespaces<B>(res: Resources<B>, lng: string, nss: seq<string>,
                             get: (string, string) -> B): (r: Resources<B>)
    ensures |nss| == 0 ==> r == res
    ensures |nss| > 0 ==> r == res[lng := Base(res, lng) + Row(lng, nss, get)]
    decreases |nss|, 1
  {
    if |nss| == 0 then res
    else
      FillNamespacesStep(res, lng, nss, get);
      FillNamespaces(SetPath(res, lng, nss[0], get(lng, nss[0])), lng, nss[1..], get)
  }

  /** The induction step of `FillNamespaces`, stated from its recursive call. */
  lemma FillNamespacesStep<B>(res: Resources<B>, lng: string, nss: seq<string>,
                              get: (string, string) -> B)
    requires |nss| > 0
    ensures FillNamespaces(SetPath(res, lng, nss[0], get(lng, nss[0])), lng, nss[1..], get)
            == res[lng := Base(res, lng) + Row(lng, nss, get)]
    decreases |nss|, 0
  {
    var base' := Base(res, lng)[nss[0] := get(lng, nss[0])];
    var res' := SetPath(res, lng, nss[0], get(lng, nss[0]));
    RowStep(Base(res, lng), lng, nss, get);
    assert Base(res', lng) == base';
    if |nss| == 1 {
      assert Row(lng, nss[1..], get) == map[];
      assert base' + map[] == base';
    } else {
      assert res'[lng := base' + Row(lng, nss[1..], get)] == res[lng := base' + Row(lng, nss[1..], get)];
    }
  }

  /** The outer `languages.forEach`. */
  function FillLanguages<B>(res: Resources<B>, lngs: seq<string>, nss: seq<string>,
                            get: (string, string) -> B): (r: Resources<B>)
    ensures |nss| == 0 ==> r == res
    ensures |nss| > 0 ==> forall l :: l in r <==> l in res || l in lngs
    ensures |nss| > 0 ==> forall l :: l in lngs ==> r[l] == Base(res, l) + Row(l, nss, get)
    ensures forall l :: l in res && l !in lngs ==> r[l] == res[l]
    decreases |lngs|, 2
  {
    if |lngs| == 0 then res
    else
      var res' := FillNamespaces(res, lngs[0], nss, get);
      var r := FillLanguages(res', lngs[1..], nss, get);
      FillLanguagesStep(res, lngs, nss, get);
      r
  }

  /** The induction step of `FillLanguages`, stated from its recursive call. */
  lemma FillLanguagesStep<B>(res: Resources<B>, lngs: seq<string>, nss: seq<string>,
                             get: (string, string) -> B)
    requires |lngs| > 0
    ensures var r := FillLanguages(FillNamespaces(res, lngs[0], nss, get), lngs[1..], nss, get);
      && (|nss| == 0 ==> r == res)
      && (|nss| > 0 ==> forall l :: l in r <==> l in res || l in lngs)
      && (|nss| > 0 ==> forall l :: l in lngs ==> r[l] == Base(res, l) + Row(l, nss, get))
      && (forall l :: l in res && l !in lngs ==> r[l] == res[l])
    decreases |lngs|, 1
  {
    FillLanguagesStepKeys(res, lngs, nss, get);
    if |nss| > 0 {
      FillLanguagesStepRows(res, lngs, nss, get);
    }
  }

  /** The step for the keys of the result and the entries it leaves alone. */
  lemma FillLanguagesStepKeys<B>(res: Resources<B>, lngs: seq<string>, nss: seq<string>,
                                 get: (string, string) -> B)
    requires |lngs| > 0
    ensures var r := FillLanguages(FillNamespaces(res, lngs[0], nss, get), lngs[1..], nss, get);
      && (|nss| == 0 ==> r == res)
      && (|nss| > 0 ==> forall l :: l in r <==> l in res || l in lngs)
      && (forall l :: l in res && l !in lngs ==> r[l] == res[l])
    decreases |lngs|, 0
  {
    assert forall l :: l in lngs <==> l == lngs[0] || l in lngs[1..] by {
      assert lngs == [lngs[0]] + lngs[1..];
    }
  }

  /** The step for the rows of the requested languages. */
  lemma FillLanguagesStepRows<B>(res: Resources<B>, lngs: seq<string>, nss: seq<string>,
                                 get: (string, string) -> B)
    requires |lngs| > 0 && |nss| > 0
    ensures var r := FillLanguages(FillNamespaces(res, lngs[0], nss, get), lngs[1..], nss, get);
      forall l :: l in lngs ==> r[l] == Base(res, l) + Row(l, nss, get)
    decreases |lngs|, 0
  {
    var res' := FillNamespaces(res, lngs[0], nss, get);
    var r := FillLanguages(res', lngs[1..], nss, get);
    var l0 := lngs[0];
    RowAbsorbs(Base(res, l0), Row(l0, nss, get));
    forall l | l in lngs
      ensures r[l] == Base(res, l) + Row(l, nss, get)
    {
      if l in lngs[1..] {
        assert r[l] == Base(res', l) + Row(l, nss, get);
      } else {
        assert l == l0;
      }
    }
  }

  /** The JSON body: for every requested language and namespace, the engine's bundle. */
  function BuildResources<B>(lngs: seq<string>, nss: seq<string>, get: (string, string) -> B): (r: Resources<B>)
    ensures |nss| == 0 ==> r == map[]
    ensures |nss| > 0 ==> r == map l | l in lngs :: Row(l, nss, get)
  {
    if |nss| > 0 then FillFromEmpty(lngs, nss, get); FillLanguages(map[], lngs, nss, get)
    else FillLanguages(map[], lngs, nss, get)
  }

  /** Starting from the empty object, every language's entry is exactly its row. */
  lemma FillFromEmpty<B>(lngs: seq<string>, nss: seq<string>, get: (string, string) -> B)
    requires |nss| > 0
    ensures FillLanguages(map[], lngs, nss, get) == map l | l in lngs :: Row(l, nss, get)
  {
    var r := FillLanguages(map[], lngs, nss, get);
    var expected := map l | l in lngs :: Row(l, nss, get);
    assert r.Keys == expected.Keys;
    forall l | l in r
      ensures r[l] == expected[l]
    {
      var empty: map<string, B> := map[];
      assert Base(map[], l) == empty;
      assert empty + Row(l, nss, get) == Row(l, nss, get);
    }
  }

  /** One request to the resources endpoint. `production` is
      `process.env.NODE_ENV === 'production'`. */
  function HandleResources<B(==)>(opts: Options, engine: Engine<B>, production: bool,
                                  query: map<string, string>): (r: Outcome<B>)
    // without a backend: a 404 before any header, and the namespace list untouched
    ensures !engine.hasBackend ==>
      r.events == [Status(404), SendText(NoBackendMessage)] && r.ns == engine.ns
    ensures engine.hasBackend ==>
      var lngs := QueryList(query, LngParam(opts.lngParam));
      var nss := QueryList(query, NsParam(opts.nsParam));
      && r.events == [ContentType("json")] + CacheHeaders(opts, production)
                     + [Load(lngs, nss), SendJson(BuildResources(lngs, nss, engine.getResourceBundle))]
      && Status(404) !in r.events
      && (engine.ns.None? ==> r.ns == None)
      && (engine.ns.Some? ==> r.ns == Some(ExtendNamespaces(engine.ns.value, nss)))
  {
    if !engine.hasBackend then Outcome([Status(404), SendText(NoBackendMessage)], engine.ns)
    else
      var lngs := QueryList(query, LngParam(opts.lngParam));
      var nss := QueryList(query, NsParam(opts.nsParam));
      var ns' := if engine.ns.Some? then Some(ExtendNamespaces(engine.ns.value, nss)) else None;
      Outcome([ContentType("json")] + CacheHeaders(opts, production)
              + [Load(lngs, nss), SendJson(BuildResources(lngs, nss, engine.getResourceBundle))], ns')
  }

  /** Calling the handler again with the same query, after the first call
      registered its namespaces, sends the same reply and registers nothing new. */
  lemma HandleResourcesIdempotent<B>(opts: Options, engine: Engine<B>, production: bool,
                                         query: map<string, string>)
    ensures var first := HandleResources(opts, engine, production, query);
      var second := HandleResources(opts, engine.(ns := first.ns), production, query);
      second.events == first.events && second.ns == first.ns
  {
    if engine.hasBackend && engine.ns.Some? {
      ExtendNamespacesIdempotent(engine.ns.value, QueryList(query, NsParam(opts.nsParam)));
    }
  }

  /** With a backend, the handler loads exactly the requested languages and
      namespaces and then sends, for each requested language (when any
      namespace is requested), an object mapping each requested namespace to
      the engine's bundle for that pair, and nothing else. */
  lemma RepliesWithRequestedBundles<B>(opts: Options, engine: Engine<B>, production: bool,
                                       query: map<string, string>)
    requires engine.hasBackend
    ensures var r := HandleResources(opts, engine, production, query);
      var lngs := QueryList(query, LngParam(opts.lngParam));
      var nss := QueryList(query, NsParam(opts.nsParam));
      && |r.events| >= 3
      && r.events[|r.events| - 2] == Load(lngs, nss)
      && r.events[|r.events| - 1].SendJson?
      && var body := r.events[|r.events| - 1].body;
         && (forall l :: l in body <==> l in lngs && |nss| > 0)
         && (forall l :: l in body ==> forall n :: n in body[l] <==> n in nss)
         && (forall l, n :: l in body && n in body[l] ==> body[l][n] == engine.getResourceBundle(l, n))
  {
    var r := HandleResources(opts, engine, production, query);
    var lngs := QueryList(query, LngParam(opts.lngParam));
    var nss := QueryList(query, NsParam(opts.nsParam));
    var head := [ContentType("json")] + CacheHeaders(opts, production);
    assert r.events == head + [Load(lngs, nss), SendJson(BuildResources(lngs, nss, engine.getResourceBundle))];
  }
}
